=== FILE: README.md ===
# votca-ctp: KMC site graph and charge-unit registry, modelled in Dafny

This project models two sequential pieces of bookkeeping in VOTCA-CTP, the
charge-transport toolkit.

- **The kinetic Monte Carlo site graph** (`Graph` in `include/votca/kmc/graph.h`).
  It holds a list of nodes (sites) and a list of edges. `Load` fills it from
  the `segments` and `pairs` tables of a state database. Each segment row
  becomes a node carrying the row's database id and position. Each pair row
  becomes an edge carrying the periodic displacement, plus a link from each
  of the two nodes to the other. The two rate columns are read and then dropped.
- **The charge-unit registry of `QMTopology`** (`src/libctp/qmtopology.cc`).
  Charge units (conjugated segments) live in three indexes: a list, a map by
  id and a map by name. `CreateCrgUnit` checks id uniqueness, name
  uniqueness and that the type exists. `Initialize` groups beads into
  segments under the key `"<molecule id>:<segment name>"`. `Update` copies
  per-frame bead state. `CopyCharges` and `CopyChargesOccupied` copy partial
  charges onto a molecule's beads. `Cleanup` is meant to empty the registry;
  as written it leaves the id map in place (see Findings).

Modules, one per file:

| file | module | what it holds |
|---|---|---|
| `wrappers.dfy` | `Wrappers` | `Option` and `Result` |
| `geometry.dfy` | `Geometry` | 3-vectors and the unit axes |
| `decimal.dfy` | `Decimal` | the text an `int` is cast to, and its inverse |
| `kmc_graph.dfy` | `KmcGraph` | nodes, edges, `AddNode`, `GetNode`, `Load` |
| `crg_registry.dfy` | `CrgRegistry` | the three unit indexes, `CreateCrgUnit` (both overloads), `Cleanup` |
| `qm_topology.dfy` | `QMTopology` | beads, `Initialize`, `CopyCharges`, `CopyChargesOccupied`, `Update` |

Every operation is a pure function or a method over immutable values. A
throw in the source becomes a `Failure` result. Where the source throws
before changing anything, the `Failure` carries no state. `Initialize` is
different: it throws in the middle of its loop. Its `Failure` therefore
carries the registry and the beads as they were at that point. Units created
for earlier beads stay registered, and earlier beads keep their unit and
position.

The source keeps pointers to nodes and charge units. The model refers to a
node by its index in the node list, and to a unit by its id. The id map owns
the unit record; the list and the name map hold ids. Ids are unique in the id
map, so an id picks out one unit, just as a pointer would.

Where the source has no guard and would read past the end of a container,
the model has a precondition instead. This covers `GetNode` on an absent id,
`Load` with a pair row naming an absent id, and `CopyCharges` with a charge
table shorter than the molecule. The source has no not-found or load-error
path for these cases, and the model follows the code.

## Model

| member | source | states |
|---|---|---|
| `KmcGraph.AddNode` | include/votca/kmc/graph.h:32-36 | the node list grows by exactly one, the new node is last and its index is returned, earlier nodes and all edges are unchanged |
| `KmcGraph.AddNodeKeepsLookup` | include/votca/kmc/graph.h:32-42 | after a node is added, every id already present still resolves to the same node |
| `KmcGraph.FindNode` | include/votca/kmc/graph.h:38-42 | when some node has the id, the result is the position of the first node in insertion order that carries it |
| `KmcGraph.GetNode` | include/votca/kmc/graph.h:38-42 | the front-to-back scan needs the id to be present, stops at the first node carrying it, and agrees with `FindNode` |
| `KmcGraph.LoadSegments` | include/votca/kmc/graph.h:60-77 | one node per segment row, in row order; the stored id minus one is the row's `id-1` column; the position is the row's (x, y, z); there are no neighbours and no edges yet |
| `KmcGraph.Load` | include/votca/kmc/graph.h:52-113 | given pair rows that only name database ids of segment rows, the loaded graph has one node per segment row and one edge per pair row; node i's id is the database id (the `id-1` column plus one) and its position is row i's |
| `KmcGraph.SegmentsResolvePairs` | include/votca/kmc/graph.h:86-90 | if every pair row names a database id of some segment row, then every lookup of the pair phase finds a node |
| `KmcGraph.AddPair` | include/votca/kmc/graph.h:86-99 | one pair row appends exactly one edge (first node with seg1, first node with seg2, the row's displacement) after the existing ones, and changes no node's id or position |
| `KmcGraph.AddPairNeighbours` | include/votca/kmc/graph.h:101-103 | one pair row adds each of its two nodes to the other's neighbour set and leaves every other neighbour set as it was |
| `KmcGraph.LoadPairs` | include/votca/kmc/graph.h:83-110 | the pair phase keeps ids and positions, and it appends exactly the table's edges, one per row in row order, after the existing ones |
| `KmcGraph.PairEdgesAt` | include/votca/kmc/graph.h:92-99 | the k-th edge of a pair table joins the nodes that row k's two ids resolve to and carries row k's displacement |
| `KmcGraph.LoadEdges` | include/votca/kmc/graph.h:86-99 | the loaded graph has as many edges as pair rows, and edge k joins the first nodes carrying seg1 and seg2 of row k, with row k's periodic displacement |
| `KmcGraph.AddPairKeepsNeighbourMatch` | include/votca/kmc/graph.h:97-103 | if the neighbour sets mirrored the edge list before a pair was added, they still do after it |
| `KmcGraph.LoadNeighbours` | include/votca/kmc/graph.h:101-103 | in the loaded graph, j is a neighbour of i exactly when some edge joins i and j in either direction; a pair given twice adds no duplicate neighbour |
| `KmcGraph.LoadEdgesInRange` | include/votca/kmc/graph.h:86-99 | every edge of the loaded graph joins two nodes of its node list |
| `KmcGraph.MatchedNeighboursSymmetric` | include/votca/kmc/graph.h:101-103 | neighbour sets that mirror an in-range edge list are symmetric: j neighbours i exactly when i neighbours j |
| `KmcGraph.LoadNeighboursSymmetric` | include/votca/kmc/graph.h:101-103 | the loaded neighbour relation is symmetric and only names nodes of the list |
| `KmcGraph.LoadIgnoresRates` | include/votca/kmc/graph.h:105-108 | two pair tables that differ only in `rate12e` / `rate21` load to the same graph |
| `Decimal.IntRoundTrip` | src/libctp/qmtopology.cc:79 | the decimal text of the molecule id parses back to the same integer |
| `Decimal.IntToDecimalInjective` | src/libctp/qmtopology.cc:79 | different molecule ids give different text |
| `CrgRegistry.GetByName` | src/libctp/qmtopology.cc:80 | the lookup by name finds a unit exactly when the name is registered, and the unit found carries that name and is the one the id map holds |
| `CrgRegistry.CreateCrgUnit` | src/libctp/qmtopology.cc:240-263 | fails with DuplicateId when the id is in use, otherwise with DuplicateName when the name is in use, otherwise with UnknownType when the type is unknown, and succeeds exactly when none of these holds; on success the unit (id, name, type, molecule) is in the id map under its id, in the name map under its name, and appended to the list, and each index grows by exactly one |
| `CrgRegistry.CreateKeepsValid` | src/libctp/qmtopology.cc:256-262 | a successful creation keeps the three indexes describing the same units, and the new unit is then found by its name |
| `CrgRegistry.CreateCrgUnitNamed` | src/libctp/qmtopology.cc:235-238 | the name-only overload uses the id (size of id map) + 1 and succeeds exactly when that id and the name are free and the type is known |
| `CrgRegistry.NamedCreateKeepsDense` | src/libctp/qmtopology.cc:235-238 | while ids are exactly 1..n, the name-only overload never meets an id in use, fails only on a duplicate name or an unknown type, and keeps ids 1..n+1 |
| `CrgRegistry.CreateCrgUnitNamedAsWritten` | src/libctp/qmtopology.cc:235-238 | as written, the overload performs the creation but hands back no unit |
| `CrgRegistry.NamedAsWrittenLosesHandle` | src/libctp/qmtopology.cc:235-238 | as written, the registry grows as with the corrected overload and the unit is registered, yet the caller receives no unit |
| `CrgRegistry.CleanupAsWritten` | src/libctp/qmtopology.cc:32-41 | as written, cleanup empties the list and the name map and resets the database id to 0, but keeps the id map |
| `CrgRegistry.CleanupAsWrittenBlocksReuse` | src/libctp/qmtopology.cc:32-41 | after the as-written cleanup the indexes disagree, and creating a unit with a previously used id fails with DuplicateId |
| `CrgRegistry.Cleanup` | src/libctp/qmtopology.cc:32-41 | cleanup leaves the list and both maps empty and the database id at 0, a consistent registry with dense ids |
| `CrgRegistry.CleanupFreesIdsAndNames` | src/libctp/qmtopology.cc:32-41 | after cleanup, no name is registered and creating a unit with any id and any name succeeds exactly when its type is known |
| `CrgRegistry.SetIntraProps` | src/libctp/qmtopology.cc:86-88 | the unit's `lambda_intra_charging`, `lambda_intra_discharging` and `energy_intra` become its type's `echarging`, `edischarging` and `energy`; the unit's other named doubles keep their values, and no other unit and no index changes |
| `QMTopology.SegmentKeyInjective` | src/libctp/qmtopology.cc:78-79 | two keys `"<molecule id>:<segment name>"` are equal only when the molecule ids and segment names are equal |
| `QMTopology.JoinSegment` | src/libctp/qmtopology.cc:86-91 | a bead joining the unit registered under its key gets that unit and its 1-based position minus one; the unit's doubles are set; the registry stays consistent, keeps the unit list as a prefix and the database id, and keeps every existing binding; the joined unit only has its three intra-molecular doubles set, its other doubles kept, and every other unit is unchanged |
| `QMTopology.CreateExtends` | src/libctp/qmtopology.cc:256-262 | creating a unit keeps the unit list as a prefix, the database id and every existing name binding, and leaves every existing unit, all its named doubles included, exactly as it was |
| `QMTopology.InitBead` | src/libctp/qmtopology.cc:59-102 | a bead without `segment.name` gets no unit and leaves the registry as it was; with a name but no `segment.type`, or no `segment.position`, grouping fails naming that option; otherwise the bead joins the unit under `molid:name`; a bead whose key is already registered joins that unit and succeeds whatever its own type; a unit created on first sight is the only new one, has the bead's segment type and molecule id, and takes the next id; when creating the unit fails, grouping fails with that creation error (unknown type, or an id already in use); on success only the unit the bead joins changes among the existing ones, and only in its three intra-molecular doubles; with dense ids and a known type it succeeds |
| `QMTopology.Initialize` | src/libctp/qmtopology.cc:56-103 | on success, every bead is assigned against the final registry: beads without a segment name have no unit; the others belong to the unit registered under their key, which carries its type's doubles, and their position is made 0-based; nothing else about a bead changes; the registry stays consistent, keeps the unit list as a prefix, the database id and every earlier binding; an earlier unit that no bead joins is unchanged, and one that beads join differs from its old self only in the three intra-molecular doubles; every new unit was made for the first bead with its key, with that bead's segment type and molecule id. On failure, the result names the bead that throws against the registry reached; earlier beads stay assigned and their units stay registered, every new unit was made for an earlier bead, only units earlier beads joined have changed, while that bead and later ones are untouched |
| `QMTopology.InitializeGroups` | src/libctp/qmtopology.cc:77-90 | when grouping succeeds, every bead with a segment name gets a unit, and two such beads end up in the same unit exactly when they share molecule id and segment name |
| `QMTopology.InitializeSucceeds` | src/libctp/qmtopology.cc:65-83 | from a consistent registry with dense ids, grouping succeeds whenever every named bead has a segment type and a position and the first bead of each key not yet registered, the one that creates its unit, names a known type; beads joining an existing unit need no known type |
| `QMTopology.InitializeNeedsOptions` | src/libctp/qmtopology.cc:65-71 | a bead with a segment name but no segment type or no position makes grouping fail |
| `QMTopology.AssignCharges` | src/libctp/qmtopology.cc:204-210 | for every i, bead i's charge becomes entry i of the table, and nothing else about any bead changes |
| `QMTopology.CopyCharges` | src/libctp/qmtopology.cc:196-211 | fails when the bead count differs from the type's atom count, or otherwise when there are no neutral charges, and succeeds exactly when neither holds; on success bead i carries neutral charge i and nothing else changes |
| `QMTopology.CopyChargesOccupied` | src/libctp/qmtopology.cc:214-233 | same as `CopyCharges` with the charged table, and it also fails when that table is empty |
| `QMTopology.ChargesCopiedReadBack` | src/libctp/qmtopology.cc:204-210 | after a charge copy, reading the beads' charges gives the table's first entries, and everything but the charges is as before |
| `QMTopology.UpdateBead` | src/libctp/qmtopology.cc:124-140 | the bead takes the frame bead's position and each axis the frame bead has; when the frame bead's symmetry is 1, the axes become U=(1,0,0), V=(0,1,0), W=(0,0,1); no other field changes |
| `QMTopology.UpdateBeadIdempotent` | src/libctp/qmtopology.cc:124-140 | applying the same frame bead twice gives the same bead as applying it once |
| `QMTopology.UpdateBeadForgetsOrientation` | src/libctp/qmtopology.cc:126-138 | when the frame bead has all three axes or symmetry 1, the resulting orientation does not depend on the bead's previous one |
| `QMTopology.Update` | src/libctp/qmtopology.cc:112-142 | requires equal bead counts; box, time and step come from the frame; bead i is updated from frame bead i, index by index |

## Findings

| source | as written | input that shows it | evidently intended | confidence | as-written member | corrected member |
|---|---|---|---|---|---|---|
| src/libctp/qmtopology.cc:32-41 | `Cleanup` clears the unit list and the name map, but not the map by id, which still holds the deleted units | create unit with id 1, clean up, create a unit with id 1 again: it fails with "already exists" | cleanup empties all three indexes | medium, not executed | `CrgRegistry.CleanupAsWritten`, `CrgRegistry.CleanupAsWrittenBlocksReuse` | `CrgRegistry.Cleanup`, `CrgRegistry.CleanupFreesIdsAndNames` |
| src/libctp/qmtopology.cc:235-238 | the name-only `CreateCrgUnit` calls the id overload and ends with no `return`, so its result is undefined | `Initialize` on one bead with a segment name and a known type: the new unit is registered, but the returned pointer is indeterminate (undefined behaviour) and line 86 dereferences it | `return CreateCrgUnit(...)` | high, not executed | `CrgRegistry.CreateCrgUnitNamedAsWritten`, `CrgRegistry.NamedAsWrittenLosesHandle` | `CrgRegistry.CreateCrgUnitNamed` |

The rest of the model (`QMTopology.InitBead`, `QMTopology.Initialize`) uses the
corrected `CreateCrgUnitNamed`. `CrgRegistry.Cleanup` is the cleanup the model offers.

## Left out

- I/O: the database handling in `Graph::Load` is not modelled. This covers opening the file and preparing and stepping statements. The two tables arrive as row sequences instead.
- I/O: `Graph::Print` and all console and verbose output are not modelled.
- The `BNode` and `Edge` classes are not part of this model, and neither is `BNode::AddNeighbor`. A fresh node is a placeholder (id 0, origin, no neighbours) that `Load` overwrites. The neighbour list is a set, so the "no duplicates" comment holds by construction.
- Integer width: ids and positions are unbounded integers. `id+1` in `Load` and `position-1` in `Initialize` do not wrap as 32-bit `int` would at its limits.
- Floating point: doubles are exact reals, and are only ever copied.
- `KmcGraph.Load`, `KmcGraph.GetNode`: a missing id is a precondition, not an error result, because the source does no end-of-list check.
- `KmcGraph.Load`: modelled on a fresh, empty graph, as the only caller (`binary.h`) uses it. Loading into a graph that already has nodes, which the source would append to, is not modelled.
- `CopyTopologyData` (called by `Initialize`) is not part of this model. Beads are the input of `Initialize`.
- Bead options are modelled as typed optional values. A failing string-to-int conversion of `segment.position` is not modelled.
- The type options `echarging`, `edischarging` and `energy` are assumed present.
- `QMTopology.Initialize`: success is only characterised for registries whose ids are 1..n (`InitializeSucceeds`). When ids are not dense, an id clash can fail the name-only creation; this is modelled but has no lemma of its own.
- `QMBead::UpdateCrg`, called by `Update`, is not part of this model.
- `setBox` is modelled as copying the box value.
- `Topology::Cleanup` (the base-class part of `Cleanup`) is not part of this model. Only the charge-unit indexes and the database id are modelled.
- `QMTopology.CopyCharges`, `QMTopology.CopyChargesOccupied`: a charge table shorter than the molecule is excluded by a precondition, because the source indexes it unchecked.
- `LoadListCharges` and `AddAtomisticBeads` are not modelled: they depend on external geometry and orbital objects and on a unit conversion. `CreateBead` is not modelled either.
- Ewald and Thole electrostatics (`ewaldactor.h`), DFT and repulsion integrals (`dftengine.cc`, `ERIs.h`), the KMC driver (`binary.h`), `fragment.h` and `iexcitoncl.h` are not modelled: they are floating-point numerics, calls into unseen libraries, or declarations only.
- The KMC scheduler, carrier state and events are not in the code this model covers, so they are not modelled.

=== FILE: crg_registry.dfy ===
/** The charge-unit registry of a QM topology: every charge unit is held in
    three indexes at once — a list in creation order, a map by id and a map
    by name.

    The source's indexes hold pointers to one shared object. Here the id map
    owns the unit record and the list and the name map hold ids; ids are
    unique in the id map, so an id identifies a unit as a pointer does. */
module CrgRegistry {
  import opened Wrappers

  /** A charge-unit type as the type table knows it: its atom count, its
      neutral and charged partial-charge tables (either may be missing), and
      the three options the segment grouping copies onto each unit. */
  datatype UnitType = UnitType(
    name: string,
    atoms: nat,
    neutral: Option<seq<real>>,
    charged: Option<seq<real>>,
    echarging: real,
    edischarging: real,
    energy: real)

  /** The table of known types, keyed by type name. Filling it from a file is
      not part of this model. */
  type TypeTable = map<string, UnitType>

  /** A charge unit. `props` holds the named doubles set on the unit. */
  datatype CrgUnit = CrgUnit(id: int, name: string, unitType: UnitType, molId: int, props: map<string, real>)

  datatype Registry = Registry(
    units: seq<int>,
    byId: map<int, CrgUnit>,
    byName: map<string, int>,
    dbId: int)

  datatype RegistryError =
    | DuplicateId(id: int)
    | DuplicateName(name: string)
    | UnknownType(typeName: string)

  /** A successful creation: the grown registry and the new unit. */
  datatype Created = Created(reg: Registry, unit: CrgUnit)

  /** The state a freshly constructed topology starts in. */
  const Empty: Registry := Registry([], map[], map[], 0)

  /** The three indexes describe the same set of units. */
  ghost predicate Valid(r: Registry) {
    && (forall i :: 0 <= i < |r.units| ==> r.units[i] in r.byId)
    && (forall id :: id in r.byId ==> id in r.units)
    && (forall i, j :: 0 <= i < j < |r.units| ==> r.units[i] != r.units[j])
    && (forall id :: id in r.byId ==>
          r.byId[id].id == id && r.byId[id].name in r.byName && r.byName[r.byId[id].name] == id)
    && (forall n :: n in r.byName ==> r.byName[n] in r.byId && r.byId[r.byName[n]].name == n)
  }

  /** Ids run from 1 to the number of units, as the name-only creation hands them out. */
  ghost predicate Dense(r: Registry) {
    forall id :: id in r.byId ==> 1 <= id <= |r.byId|
  }

  /** The unit registered under `name`, if any. */
  function GetByName(r: Registry, name: string): (u: Option<CrgUnit>)
    requires Valid(r)
    ensures u.Some? <==> name in r.byName
    ensures u.Some? ==> u.value.name == name && u.value.id in r.byId && r.byId[u.value.id] == u.value
  {
    if name in r.byName then
      var id := r.byName[name];
      assert id in r.byId;
      Some(r.byId[id])
    else None
  }

  /** Creates a unit with an explicit id. The checks come in the source's
      order: the id, then the name, then the type. */
  function CreateCrgUnit(r: Registry, types: TypeTable, id: int, name: string, typeName: string, molId: int)
    : (res: Result<Created, RegistryError>)
    ensures id in r.byId ==> res == Failure(DuplicateId(id))
    ensures id !in r.byId && name in r.byName ==> res == Failure(DuplicateName(name))
    ensures id !in r.byId && name !in r.byName && typeName !in types ==> res == Failure(UnknownType(typeName))
    ensures res.Success? <==> id !in r.byId && name !in r.byName && typeName in types
    ensures res.Success? ==>
      && res.value.unit == CrgUnit(id, name, types[typeName], molId, map[])
      && res.value.reg.units == r.units + [id]
      && res.value.reg.byId == r.byId[id := res.value.unit]
      && res.value.reg.byName == r.byName[name := id]
      && |res.value.reg.byId| == |r.byId| + 1
      && |res.value.reg.byName| == |r.byName| + 1
      && res.value.reg.dbId == r.dbId
  {
    if id in r.byId then Failure(DuplicateId(id))
    else if name in r.byName then Failure(DuplicateName(name))
    else if typeName !in types then Failure(UnknownType(typeName))
    else
      var unit := CrgUnit(id, name, types[typeName], molId, map[]);
      Success(Created(Registry(r.units + [id], r.byId[id := unit], r.byName[name := id], r.dbId), unit))
  }

  /** A successful creation keeps the three indexes in agreement, and the new
      unit is found under its name. */
  lemma CreateKeepsValid(r: Registry, types: TypeTable, id: int, name: string, typeName: string, molId: int)
    requires Valid(r)
    requires CreateCrgUnit(r, types, id, name, typeName, molId).Success?
    ensures Valid(CreateCrgUnit(r, types, id, name, typeName, molId).value.reg)
    ensures GetByName(CreateCrgUnit(r, types, id, name, typeName, molId).value.reg, name)
      == Some(CreateCrgUnit(r, types, id, name, typeName, molId).value.unit)
  {
  }

  /** Creates a unit whose id is one more than the number of units in the id
      map, returning the unit (see the findings for the source's missing return). */
  function CreateCrgUnitNamed(r: Registry, types: TypeTable, name: string, typeName: string, molId: int)
    : (res: Result<Created, RegistryError>)
    ensures res.Success? ==> res.value.unit.id == |r.byId| + 1 && res.value.unit.name == name
    ensures res.Success? <==> |r.byId| + 1 !in r.byId && name !in r.byName && typeName in types
  {
    CreateCrgUnit(r, types, |r.byId| + 1, name, typeName, molId)
  }

  /** While ids are dense the name-only creation never hits an id in use, and
      keeps them dense. */
  lemma NamedCreateKeepsDense(r: Registry, types: TypeTable, name: string, typeName: string, molId: int)
    requires Dense(r)
    ensures CreateCrgUnitNamed(r, types, name, typeName, molId).Success?
      <==> name !in r.byName && typeName in types
    ensures CreateCrgUnitNamed(r, types, name, typeName, molId).Success? ==>
      Dense(CreateCrgUnitNamed(r, types, name, typeName, molId).value.reg)
  {
    assert |r.byId| + 1 !in r.byId;
  }

  /** The name-only creation as written: the inner creation runs, but the
      function ends without a return statement, so no unit handle comes back. */
  datatype CreatedAsWritten = CreatedAsWritten(reg: Registry, handle: Option<CrgUnit>)

  function CreateCrgUnitNamedAsWritten(r: Registry, types: TypeTable, name: string, typeName: string, molId: int)
    : (res: Result<CreatedAsWritten, RegistryError>)
    ensures res.Success? ==> res.value.handle.None?
    ensures res.Success? <==> |r.byId| + 1 !in r.byId && name !in r.byName && typeName in types
  {
    match CreateCrgUnit(r, types, |r.byId| + 1, name, typeName, molId)
    case Failure(e) => Failure(e)
    case Success(c) => Success(CreatedAsWritten(c.reg, None))
  }

  /** The registry grows exactly as with the corrected version, yet the caller
      gets no unit back although one was registered under `name`. */
  lemma NamedAsWrittenLosesHandle(r: Registry, types: TypeTable, name: string, typeName: string, molId: int)
    requires Valid(r)
    requires CreateCrgUnitNamedAsWritten(r, types, name, typeName, molId).Success?
    ensures CreateCrgUnitNamed(r, types, name, typeName, molId).Success?
    ensures CreateCrgUnitNamedAsWritten(r, types, name, typeName, molId).value.reg
      == CreateCrgUnitNamed(r, types, name, typeName, molId).value.reg
    ensures GetByName(CreateCrgUnitNamedAsWritten(r, types, name, typeName, molId).value.reg, name).Some?
    ensures CreateCrgUnitNamedAsWritten(r, types, name, typeName, molId).value.handle.None?
  {
    CreateKeepsValid(r, types, |r.byId| + 1, name, typeName, molId);
  }

  /** Cleanup as written: the list and the name map are cleared and the
      database id reset, but the id map keeps its entries. */
  function CleanupAsWritten(r: Registry): (c: Registry)
    ensures c.units == [] && c.byName == map[] && c.dbId == 0
    ensures c.byId == r.byId
  {
    Registry([], r.byId, map[], 0)
  }

  /** After the as-written cleanup the indexes disagree, and an id used before
      cannot be used again although the unit is gone from the list. */
  lemma CleanupAsWrittenBlocksReuse(r: Registry, types: TypeTable, id: int, name: string, typeName: string, molId: int)
    requires id in r.byId
    ensures !Valid(CleanupAsWritten(r))
    ensures CreateCrgUnit(CleanupAsWritten(r), types, id, name, typeName, molId) == Failure(DuplicateId(id))
  {
    var c := CleanupAsWritten(r);
    assert id in c.byId && id !in c.units;
  }

  /** Cleanup that empties all three indexes and resets the database id,
      returning the registry to its freshly constructed state. */
  function Cleanup(r: Registry): (c: Registry)
    ensures Valid(c) && Dense(c)
    ensures |c.units| == 0 && |c.byId| == 0 && |c.byName| == 0 && c.dbId == 0
  {
    Empty
  }

  /** After cleanup every id and every name is free again: creation fails only
      for an unknown type. */
  lemma CleanupFreesIdsAndNames(r: Registry, types: TypeTable, id: int, name: string, typeName: string, molId: int)
    ensures CreateCrgUnit(Cleanup(r), types, id, name, typeName, molId).Success? <==> typeName in types
    ensures GetByName(Cleanup(r), name).None?
  {
  }

  /** The three named doubles the segment grouping sets on a unit. */
  const LambdaIntraCharging: string := "lambda_intra_charging"
  const LambdaIntraDischarging: string := "lambda_intra_discharging"
  const EnergyIntra: string := "energy_intra"

  /** Unit `u` with its three intra-molecular doubles set from the options of
      its type; every other double and every other field is kept. */
  function WithIntraProps(u: CrgUnit): (u': CrgUnit)
    ensures u'.(props := map[]) == u.(props := map[])
    ensures u'.props.Keys == u.props.Keys + {LambdaIntraCharging, LambdaIntraDischarging, EnergyIntra}
    ensures forall k ::
              k in u.props && k != LambdaIntraCharging && k != LambdaIntraDischarging && k != EnergyIntra
              ==> u'.props[k] == u.props[k]
    ensures u'.props[LambdaIntraCharging] == u.unitType.echarging
    ensures u'.props[LambdaIntraDischarging] == u.unitType.edischarging
    ensures u'.props[EnergyIntra] == u.unitType.energy
  {
    u.(props := u.props[LambdaIntraCharging := u.unitType.echarging]
                       [LambdaIntraDischarging := u.unitType.edischarging]
                       [EnergyIntra := u.unitType.energy])
  }

  /** Setting the doubles a second time changes nothing. */
  lemma WithIntraPropsIdempotent(u: CrgUnit)
    ensures WithIntraProps(WithIntraProps(u)) == WithIntraProps(u)
  {
  }

  /** Sets the three intra-molecular doubles of unit `id` from the options of its type. */
  function SetIntraProps(r: Registry, id: int): (r': Registry)
    requires id in r.byId
    ensures r'.units == r.units && r'.byName == r.byName && r'.dbId == r.dbId
    ensures r'.byId.Keys == r.byId.Keys
    ensures forall k :: k in r.byId && k != id ==> r'.byId[k] == r.byId[k]
    ensures r'.byId[id].(props := map[]) == r.byId[id].(props := map[])
    ensures r'.byId[id].props.Keys
      == r.byId[id].props.Keys + {LambdaIntraCharging, LambdaIntraDischarging, EnergyIntra}
    ensures forall k ::
              k in r.byId[id].props && k != LambdaIntraCharging && k != LambdaIntraDischarging && k != EnergyIntra
              ==> r'.byId[id].props[k] == r.byId[id].props[k]
    ensures var u := r'.byId[id];
      && LambdaIntraCharging in u.props && LambdaIntraDischarging in u.props && EnergyIntra in u.props
      && u.props[LambdaIntraCharging] == u.unitType.echarging
      && u.props[LambdaIntraDischarging] == u.unitType.edischarging
      && u.props[EnergyIntra] == u.unitType.energy
    ensures r'.byId[id] == WithIntraProps(r.byId[id])
    ensures Valid(r) ==> Valid(r')
  {
    r.(byId := r.byId[id := WithIntraProps(r.byId[id])])
  }
}

=== FILE: decimal.dfy ===
/** Decimal rendering of integers, as done by a lexical cast of an `int` to a
    string: an optional minus sign followed by the digits, with no leading zeros. */
module Decimal {

  predicate IsDigit(c: char) {
    '0' <= c <= '9'
  }

  predicate AllDigits(s: string) {
    forall i :: 0 <= i < |s| ==> IsDigit(s[i])
  }

  function DigitChar(d: nat): (c: char)
    requires d < 10
    ensures IsDigit(c)
  {
    (('0' as int) + d) as char
  }

  function DigitValue(c: char): (d: nat)
    requires IsDigit(c)
    ensures d < 10
    ensures DigitChar(d) == c
  {
    (c as int) - ('0' as int)
  }

  /** The digits of `n`, most significant first. */
  function NatToDecimal(n: nat): (s: string)
    ensures 1 <= |s|
    ensures AllDigits(s)
    decreases n
  {
    if n < 10 then [DigitChar(n)] else NatToDecimal(n / 10) + [DigitChar(n % 10)]
  }

  /** Reads a digit string back, most significant digit first. */
  function DecimalToNat(s: string): nat
    requires AllDigits(s)
    decreases |s|
  {
    if s == [] then 0 else DecimalToNat(s[..|s| - 1]) * 10 + DigitValue(s[|s| - 1])
  }

  lemma {:induction false} NatRoundTrip(n: nat)
    ensures DecimalToNat(NatToDecimal(n)) == n
    decreases n
  {
    var s := NatToDecimal(n);
    if n < 10 {
      assert s[..|s| - 1] == [];
    } else {
      NatRoundTrip(n / 10);
      assert s[..|s| - 1] == NatToDecimal(n / 10);
      assert DigitValue(DigitChar(n % 10)) == n % 10;
    }
  }

  /** The text a lexical cast produces for `i`. */
  function IntToDecimal(i: int): (s: string)
    ensures 1 <= |s|
    ensures forall k :: 0 <= k < |s| ==> s[k] != ':'
  {
    if i < 0 then "-" + NatToDecimal(-i) else NatToDecimal(i)
  }

  predicate IsIntText(s: string) {
    if 0 < |s| && s[0] == '-' then AllDigits(s[1..]) else AllDigits(s)
  }

  function DecimalToInt(s: string): int
    requires IsIntText(s)
  {
    if 0 < |s| && s[0] == '-' then -(DecimalToNat(s[1..]) as int) else DecimalToNat(s) as int
  }

  /** Parsing the cast's text gives the integer back. */
  lemma IntRoundTrip(i: int)
    ensures IsIntText(IntToDecimal(i))
    ensures DecimalToInt(IntToDecimal(i)) == i
  {
    var s := IntToDecimal(i);
    if i < 0 {
      assert s[1..] == NatToDecimal(-i);
      NatRoundTrip(-i);
    } else {
      NatRoundTrip(i);
    }
  }

  /** Different integers never render to the same text. */
  lemma IntToDecimalInjective(a: int, b: int)
    requires IntToDecimal(a) == IntToDecimal(b)
    ensures a == b
  {
    IntRoundTrip(a);
    IntRoundTrip(b);
  }
}

=== FILE: geometry.dfy ===
/** Three-component vectors. Coordinates are only copied, never computed with,
    so exact reals stand in for the source's doubles. */
module Geometry {

  datatype Vec = Vec(x: real, y: real, z: real)

  /** The unit axes a bead's orientation is forced to when its symmetry is 1. */
  const UnitX: Vec := Vec(1.0, 0.0, 0.0)
  const UnitY: Vec := Vec(0.0, 1.0, 0.0)
  const UnitZ: Vec := Vec(0.0, 0.0, 1.0)

  const Origin: Vec := Vec(0.0, 0.0, 0.0)
}

=== FILE: kmc_graph.dfy ===
/** The kinetic Monte Carlo site graph: a list of nodes and a list of edges,
    filled from the `segments` and `pairs` tables of a state database.

    The source keeps pointers to nodes; here a node is referred to by its
    index in the node list, which is what a pointer into that list
    identifies. Database rows arrive as sequences instead of an SQLite
    statement. */
module KmcGraph {
  import opened Geometry

  /** A site. `neighbours` holds the indices of adjacent nodes; being a set,
      adding the same neighbour twice leaves it unchanged. */
  datatype BNode = BNode(id: int, position: Vec, neighbours: set<nat>)

  /** A connection between two nodes (by index) with its periodic displacement. */
  datatype Edge = Edge(from: nat, to: nat, distancePbc: Vec)

  datatype Graph = Graph(nodes: seq<BNode>, edges: seq<Edge>)

  /** A row of `SELECT id-1, posX, posY, posZ FROM segments`. */
  datatype SegmentRow = SegmentRow(idMinusOne: int, posX: real, posY: real, posZ: real)

  /** A row of `SELECT seg1, seg2e, drX, drY, drZ, rate12e, rate21 FROM pairs`. */
  datatype PairRow = PairRow(seg1: int, seg2: int, drX: real, drY: real, drZ: real,
                             rate12e: real, rate21e: real)

  const EmptyGraph: Graph := Graph([], [])

  /** A freshly constructed node. The node constructor is not part of this
      model; `Load` overwrites the id and position right after adding it. */
  const NewNode: BNode := BNode(0, Origin, {})

  predicate HasNode(nodes: seq<BNode>, id: int) {
    exists i :: 0 <= i < |nodes| && nodes[i].id == id
  }

  /** `k` is the position of the first node carrying `id`. */
  predicate IsFirstWithId(nodes: seq<BNode>, id: int, k: nat) {
    && k < |nodes|
    && nodes[k].id == id
    && forall j :: 0 <= j < k ==> nodes[j].id != id
  }

  /** Two node lists with the same sites: same ids and positions, in the same order. */
  predicate SameSites(a: seq<BNode>, b: seq<BNode>) {
    |a| == |b| && forall i :: 0 <= i < |a| ==> a[i].id == b[i].id && a[i].position == b[i].position
  }

  /** Appends a fresh node and returns the graph together with the new node's index. */
  function AddNode(g: Graph): (r: (Graph, nat))
    ensures |r.0.nodes| == |g.nodes| + 1
    ensures r.1 == |g.nodes| && r.0.nodes[r.1] == NewNode
    ensures r.0.nodes[..|g.nodes|] == g.nodes
    ensures r.0.edges == g.edges
  {
    (Graph(g.nodes + [NewNode], g.edges), |g.nodes|)
  }

  /** The index of the first node with `id`, the value a linear scan stops at. */
  function FindNode(nodes: seq<BNode>, id: int): (k: nat)
    requires HasNode(nodes, id)
    ensures IsFirstWithId(nodes, id, k)
    decreases |nodes|
  {
    if nodes[0].id == id then 0
    else
      assert HasNode(nodes[1..], id) by {
        var i :| 0 <= i < |nodes| && nodes[i].id == id;
        assert nodes[1..][i - 1].id == id;
      }
      1 + FindNode(nodes[1..], id)
  }

  /** The first-match position is unique, so any scan that stops there agrees with `FindNode`. */
  lemma FirstWithIdUnique(nodes: seq<BNode>, id: int, k: nat, k': nat)
    requires IsFirstWithId(nodes, id, k) && IsFirstWithId(nodes, id, k')
    ensures k == k'
  {
  }

  /** `FindNode` only looks at ids. */
  lemma FindNodeSameSites(a: seq<BNode>, b: seq<BNode>, id: int)
    requires SameSites(a, b) && HasNode(a, id)
    ensures HasNode(b, id)
    ensures FindNode(a, id) == FindNode(b, id)
  {
    var k := FindNode(a, id);
    assert b[k].id == id;
    FirstWithIdUnique(b, id, k, FindNode(b, id));
  }

  /** Adding a node does not change which node an existing id resolves to. */
  lemma AddNodeKeepsLookup(g: Graph, id: int)
    requires HasNode(g.nodes, id)
    ensures HasNode(AddNode(g).0.nodes, id)
    ensures FindNode(AddNode(g).0.nodes, id) == FindNode(g.nodes, id)
  {
    var nodes' := AddNode(g).0.nodes;
    var k := FindNode(g.nodes, id);
    assert nodes'[k] == g.nodes[k];
    assert IsFirstWithId(nodes', id, k) by {
      forall j | 0 <= j < k ensures nodes'[j].id != id {
        assert nodes'[j] == g.nodes[j];
      }
    }
    FirstWithIdUnique(nodes', id, k, FindNode(nodes', id));
  }

  /** The lookup as the source performs it: walk from the front until the id matches.
      The source has no end-of-list check, so the id must be present. */
  method GetNode(g: Graph, id: int) returns (k: nat)
    requires HasNode(g.nodes, id)
    ensures IsFirstWithId(g.nodes, id, k)
    ensures k == FindNode(g.nodes, id)
  {
    k := 0;
    while g.nodes[k].id != id
      invariant k < |g.nodes|
      invariant forall j :: 0 <= j < k ==> g.nodes[j].id != id
      invariant exists i :: k <= i < |g.nodes| && g.nodes[i].id == id
      decreases |g.nodes| - k
    {
      k := k + 1;
    }
    FirstWithIdUnique(g.nodes, id, k, FindNode(g.nodes, id));
  }
  /** The node a segment row yields: its id is the row's `id-1` column plus one. */
  function SegmentNode(row: SegmentRow): BNode {
    BNode(row.idMinusOne + 1, Vec(row.posX, row.posY, row.posZ), {})
  }

  /** The segment phase of `Load`: one `AddNode` per row, then id and position set. */
  function LoadSegments(rows: seq<SegmentRow>): (g: Graph)
    ensures |g.nodes| == |rows| && g.edges == []
    ensures forall i :: 0 <= i < |rows| ==> g.nodes[i].id - 1 == rows[i].idMinusOne
    ensures forall i :: 0 <= i < |rows| ==>
      g.nodes[i].position == Vec(rows[i].posX, rows[i].posY, rows[i].posZ)
    ensures forall i :: 0 <= i < |rows| ==> g.nodes[i].neighbours == {}
    decreases |rows|
  {
    if rows == [] then EmptyGraph
    else
      var row := rows[|rows| - 1];
      var (g1, k) := AddNode(LoadSegments(rows[..|rows| - 1]));
      Graph(g1.nodes[k := g1.nodes[k].(id := row.idMinusOne + 1,
                                       position := Vec(row.posX, row.posY, row.posZ))],
            g1.edges)
  }

  /** The database ids of the segment rows. */
  function SegmentIds(rows: seq<SegmentRow>): set<int> {
    set i | 0 <= i < |rows| :: rows[i].idMinusOne + 1
  }

  lemma SegmentIdLoaded(rows: seq<SegmentRow>, id: int)
    requires id in SegmentIds(rows)
    ensures HasNode(LoadSegments(rows).nodes, id)
  {
    var i :| 0 <= i < |rows| && rows[i].idMinusOne + 1 == id;
    assert LoadSegments(rows).nodes[i].id == id;
  }

  /** Every pair row names two ids present in the node list. */
  predicate PairsResolve(nodes: seq<BNode>, pairs: seq<PairRow>) {
    forall k :: 0 <= k < |pairs| ==> HasNode(nodes, pairs[k].seg1) && HasNode(nodes, pairs[k].seg2)
  }

  /** Every pair row names the database ids of two segment rows. */
  predicate PairsReferToSegments(rows: seq<SegmentRow>, pairs: seq<PairRow>) {
    forall k :: 0 <= k < |pairs| ==> pairs[k].seg1 in SegmentIds(rows) && pairs[k].seg2 in SegmentIds(rows)
  }

  /** If every pair names a segment row's database id, every lookup of the pair phase finds a node. */
  lemma SegmentsResolvePairs(rows: seq<SegmentRow>, pairs: seq<PairRow>)
    requires PairsReferToSegments(rows, pairs)
    ensures PairsResolve(LoadSegments(rows).nodes, pairs)
  {
    forall k | 0 <= k < |pairs|
      ensures HasNode(LoadSegments(rows).nodes, pairs[k].seg1)
      ensures HasNode(LoadSegments(rows).nodes, pairs[k].seg2)
    {
      SegmentIdLoaded(rows, pairs[k].seg1);
      SegmentIdLoaded(rows, pairs[k].seg2);
    }
  }

  function Displacement(p: PairRow): Vec {
    Vec(p.drX, p.drY, p.drZ)
  }

  /** The edge a pair row yields: from the first node carrying `seg1` to the
      first node carrying `seg2`, with the row's periodic displacement. */
  function PairEdge(nodes: seq<BNode>, p: PairRow): Edge
    requires HasNode(nodes, p.seg1) && HasNode(nodes, p.seg2)
  {
    Edge(FindNode(nodes, p.seg1), FindNode(nodes, p.seg2), Displacement(p))
  }

  lemma PairEdgeSameSites(a: seq<BNode>, b: seq<BNode>, p: PairRow)
    requires SameSites(a, b) && HasNode(a, p.seg1) && HasNode(a, p.seg2)
    ensures HasNode(b, p.seg1) && HasNode(b, p.seg2)
    ensures PairEdge(a, p) == PairEdge(b, p)
  {
    FindNodeSameSites(a, b, p.seg1);
    FindNodeSameSites(a, b, p.seg2);
  }

  /** Adds `b` to the neighbours of node `a`. */
  function AddNeighbour(nodes: seq<BNode>, a: nat, b: nat): (r: seq<BNode>)
    requires a < |nodes|
    ensures SameSites(nodes, r)
    ensures forall i :: 0 <= i < |nodes| && i != a ==> r[i].neighbours == nodes[i].neighbours
    ensures r[a].neighbours == nodes[a].neighbours + {b}
  {
    nodes[a := nodes[a].(neighbours := nodes[a].neighbours + {b})]
  }

  /** One iteration of the pair phase: resolve both ids, append the edge,
      and link the two nodes both ways. The rate columns are not used. */
  function AddPair(g: Graph, p: PairRow): (r: Graph)
    requires HasNode(g.nodes, p.seg1) && HasNode(g.nodes, p.seg2)
    ensures SameSites(g.nodes, r.nodes)
    ensures r.edges == g.edges + [Edge(FindNode(g.nodes, p.seg1), FindNode(g.nodes, p.seg2), Displacement(p))]
  {
    var e := PairEdge(g.nodes, p);
    Graph(AddNeighbour(AddNeighbour(g.nodes, e.from, e.to), e.to, e.from), g.edges + [e])
  }

  /** One pair row adds each of its two nodes to the other's neighbours and
      touches no other neighbour set. */
  lemma AddPairNeighbours(g: Graph, p: PairRow, i: nat)
    requires HasNode(g.nodes, p.seg1) && HasNode(g.nodes, p.seg2)
    requires i < |g.nodes|
    ensures var a, b := FindNode(g.nodes, p.seg1), FindNode(g.nodes, p.seg2);
      AddPair(g, p).nodes[i].neighbours == g.nodes[i].neighbours
        + (if i == a then {b} else {}) + (if i == b then {a} else {})
  {
  }

  /** The edges a pair table yields over a fixed node list, one per row. */
  function PairEdges(nodes: seq<BNode>, pairs: seq<PairRow>): (es: seq<Edge>)
    requires PairsResolve(nodes, pairs)
    ensures |es| == |pairs|
    decreases |pairs|
  {
    if pairs == [] then []
    else PairEdges(nodes, pairs[..|pairs| - 1]) + [PairEdge(nodes, pairs[|pairs| - 1])]
  }

  lemma {:induction false} PairEdgesAt(nodes: seq<BNode>, pairs: seq<PairRow>, k: nat)
    requires PairsResolve(nodes, pairs) && k < |pairs|
    ensures PairEdges(nodes, pairs)[k] ==
      Edge(FindNode(nodes, pairs[k].seg1), FindNode(nodes, pairs[k].seg2), Displacement(pairs[k]))
    decreases |pairs|
  {
    var init := pairs[..|pairs| - 1];
    if k < |init| {
      PairEdgesAt(nodes, init, k);
      assert pairs[k] == init[k];
    }
  }

  /** The pair phase of `Load`, rows processed in order: sites are kept, and
      exactly the table's edges are appended, one per row, in row order. */
  function LoadPairs(g: Graph, pairs: seq<PairRow>): (r: Graph)
    requires PairsResolve(g.nodes, pairs)
    ensures SameSites(g.nodes, r.nodes)
    ensures r.edges == g.edges + PairEdges(g.nodes, pairs)
    decreases |pairs|
  {
    if pairs == [] then g
    else
      var init := pairs[..|pairs| - 1];
      var p := pairs[|pairs| - 1];
      var prev := LoadPairs(g, init);
      PairEdgeSameSites(g.nodes, prev.nodes, p);
      assert g.edges + PairEdges(g.nodes, pairs)
          == (g.edges + PairEdges(g.nodes, init)) + [PairEdge(g.nodes, p)];
      AddPair(prev, p)
  }

  /** Builds the graph from the two tables: one node per segment row, in row
      order, carrying the database id and the row's position, and one edge
      per pair row. A pair naming an id that no segment row carries would make
      the source's lookup run past the end of the list. */
  function Load(segments: seq<SegmentRow>, pairs: seq<PairRow>): (g: Graph)
    requires PairsReferToSegments(segments, pairs)
    ensures |g.nodes| == |segments| && |g.edges| == |pairs|
    ensures forall i :: 0 <= i < |segments| ==>
      g.nodes[i].id == segments[i].idMinusOne + 1 &&
      g.nodes[i].position == Vec(segments[i].posX, segments[i].posY, segments[i].posZ)
  {
    SegmentsResolvePairs(segments, pairs);
    LoadPairs(LoadSegments(segments), pairs)
  }

  /** Edge `e` joins nodes `i` and `j`, in either direction. */
  predicate Connects(e: Edge, i: nat, j: nat) {
    (e.from == i && e.to == j) || (e.from == j && e.to == i)
  }

  ghost predicate Linked(edges: seq<Edge>, i: nat, j: nat) {
    exists k :: 0 <= k < |edges| && Connects(edges[k], i, j)
  }

  /** The neighbour sets are exactly the adjacency the edge list describes. */
  ghost predicate NeighboursMatchEdges(g: Graph) {
    forall i, j :: 0 <= i < |g.nodes| ==> (j in g.nodes[i].neighbours <==> Linked(g.edges, i, j))
  }

  lemma LinkedAppend(edges: seq<Edge>, e: Edge, i: nat, j: nat)
    ensures Linked(edges + [e], i, j) <==> Linked(edges, i, j) || Connects(e, i, j)
  {
    var edges' := edges + [e];
    if Linked(edges, i, j) {
      var k :| 0 <= k < |edges| && Connects(edges[k], i, j);
      assert edges'[k] == edges[k];
    }
    if Connects(e, i, j) {
      assert edges'[|edges|] == e;
    }
    if Linked(edges', i, j) {
      var k :| 0 <= k < |edges'| && Connects(edges'[k], i, j);
      if k < |edges| {
        assert edges'[k] == edges[k];
      }
    }
  }

  /** A pair row keeps the neighbour sets in step with the edge list. */
  lemma AddPairKeepsNeighbourMatch(g: Graph, p: PairRow)
    requires HasNode(g.nodes, p.seg1) && HasNode(g.nodes, p.seg2)
    requires NeighboursMatchEdges(g)
    ensures NeighboursMatchEdges(AddPair(g, p))
  {
    var r := AddPair(g, p);
    var e := PairEdge(g.nodes, p);
    forall i, j | 0 <= i < |r.nodes|
      ensures j in r.nodes[i].neighbours <==> Linked(r.edges, i, j)
    {
      AddPairNeighbours(g, p, i);
      LinkedAppend(g.edges, e, i, j);
    }
  }

  lemma {:induction false} LoadPairsKeepsNeighbourMatch(g: Graph, pairs: seq<PairRow>)
    requires PairsResolve(g.nodes, pairs)
    requires NeighboursMatchEdges(g)
    ensures NeighboursMatchEdges(LoadPairs(g, pairs))
    decreases |pairs|
  {
    if pairs != [] {
      var prev := LoadPairs(g, pairs[..|pairs| - 1]);
      var p := pairs[|pairs| - 1];
      LoadPairsKeepsNeighbourMatch(g, pairs[..|pairs| - 1]);
      PairEdgeSameSites(g.nodes, prev.nodes, p);
      AddPairKeepsNeighbourMatch(prev, p);
    }
  }

  /** Edge `k` of the loaded graph joins the nodes that pair row `k`'s two ids
      resolve to and carries that row's periodic displacement. */
  lemma LoadEdges(segments: seq<SegmentRow>, pairs: seq<PairRow>, k: nat)
    requires PairsReferToSegments(segments, pairs)
    requires k < |pairs|
    ensures HasNode(Load(segments, pairs).nodes, pairs[k].seg1)
    ensures HasNode(Load(segments, pairs).nodes, pairs[k].seg2)
    ensures Load(segments, pairs).edges[k] ==
      Edge(FindNode(Load(segments, pairs).nodes, pairs[k].seg1),
           FindNode(Load(segments, pairs).nodes, pairs[k].seg2),
           Displacement(pairs[k]))
  {
    SegmentsResolvePairs(segments, pairs);
    var g0 := LoadSegments(segments);
    var g := LoadPairs(g0, pairs);
    assert g.edges == PairEdges(g0.nodes, pairs);
    PairEdgesAt(g0.nodes, pairs, k);
    PairEdgeSameSites(g0.nodes, g.nodes, pairs[k]);
  }

  /** Node `j` is a neighbour of node `i` exactly when some pair row produced
      an edge between them, in either direction. */
  lemma LoadNeighbours(segments: seq<SegmentRow>, pairs: seq<PairRow>)
    requires PairsReferToSegments(segments, pairs)
    ensures NeighboursMatchEdges(Load(segments, pairs))
  {
    SegmentsResolvePairs(segments, pairs);
    LoadPairsKeepsNeighbourMatch(LoadSegments(segments), pairs);
  }

  /** Every edge a pair table yields joins two nodes of the list. */
  lemma PairEdgesInRange(nodes: seq<BNode>, pairs: seq<PairRow>, k: nat)
    requires PairsResolve(nodes, pairs) && k < |pairs|
    ensures PairEdges(nodes, pairs)[k].from < |nodes| && PairEdges(nodes, pairs)[k].to < |nodes|
  {
    PairEdgesAt(nodes, pairs, k);
  }

  /** Every edge joins two nodes of the list. */
  predicate EdgesInRange(g: Graph) {
    forall k :: 0 <= k < |g.edges| ==> g.edges[k].from < |g.nodes| && g.edges[k].to < |g.nodes|
  }

  lemma LoadEdgesInRange(segments: seq<SegmentRow>, pairs: seq<PairRow>)
    requires PairsReferToSegments(segments, pairs)
    ensures EdgesInRange(Load(segments, pairs))
  {
    SegmentsResolvePairs(segments, pairs);
    var g0 := LoadSegments(segments);
    var g := LoadPairs(g0, pairs);
    assert g.edges == PairEdges(g0.nodes, pairs);
    forall k | 0 <= k < |g.edges| ensures g.edges[k].from < |g.nodes| && g.edges[k].to < |g.nodes| {
      PairEdgesInRange(g0.nodes, pairs, k);
    }
  }

  /** Neighbour sets that mirror an in-range edge list form a symmetric relation. */
  lemma MatchedNeighboursSymmetric(g: Graph, i: nat, j: nat)
    requires NeighboursMatchEdges(g) && EdgesInRange(g)
    requires i < |g.nodes| && j in g.nodes[i].neighbours
    ensures j < |g.nodes| && i in g.nodes[j].neighbours
  {
    assert Linked(g.edges, i, j);
    var k :| 0 <= k < |g.edges| && Connects(g.edges[k], i, j);
    assert Connects(g.edges[k], j, i);
  }

  /** After loading, the neighbour relation is symmetric and stays within the node list. */
  lemma LoadNeighboursSymmetric(segments: seq<SegmentRow>, pairs: seq<PairRow>, i: nat, j: nat)
    requires PairsReferToSegments(segments, pairs)
    requires i < |Load(segments, pairs).nodes| && j in Load(segments, pairs).nodes[i].neighbours
    ensures j < |Load(segments, pairs).nodes| && i in Load(segments, pairs).nodes[j].neighbours
  {
    LoadNeighbours(segments, pairs);
    LoadEdgesInRange(segments, pairs);
    MatchedNeighboursSymmetric(Load(segments, pairs), i, j);
  }

  /** Two pair tables that agree on everything except the rate columns. */
  predicate SameExceptRates(p: seq<PairRow>, q: seq<PairRow>) {
    && |p| == |q|
    && forall k :: 0 <= k < |p| ==>
      p[k].seg1 == q[k].seg1 && p[k].seg2 == q[k].seg2 && Displacement(p[k]) == Displacement(q[k])
  }

  lemma {:induction false} LoadPairsIgnoresRates(g: Graph, p: seq<PairRow>, q: seq<PairRow>)
    requires SameExceptRates(p, q)
    requires PairsResolve(g.nodes, p)
    ensures PairsResolve(g.nodes, q)
    ensures LoadPairs(g, p) == LoadPairs(g, q)
    decreases |p|
  {
    if p != [] {
      var p', q' := p[..|p| - 1], q[..|q| - 1];
      LoadPairsIgnoresRates(g, p', q');
      var prev := LoadPairs(g, p');
      PairEdgeSameSites(g.nodes, prev.nodes, p[|p| - 1]);
      assert AddPair(prev, p[|p| - 1]) == AddPair(prev, q[|q| - 1]);
    }
  }

  /** The rate columns are read and dropped: they never reach the graph. */
  lemma LoadIgnoresRates(segments: seq<SegmentRow>, p: seq<PairRow>, q: seq<PairRow>)
    requires SameExceptRates(p, q)
    requires PairsReferToSegments(segments, p)
    ensures PairsReferToSegments(segments, q)
    ensures Load(segments, p) == Load(segments, q)
  {
    SegmentsResolvePairs(segments, p);
    LoadPairsIgnoresRates(LoadSegments(segments), p, q);
  }
}

=== FILE: qm_topology.dfy ===
/** The bead-level operations of a QM topology: grouping beads into charge
    units (conjugated segments), copying per-frame bead state from a
    coarse-grained topology, and copying partial charges onto a molecule's beads. */
module QMTopology {
  import opened Wrappers
  import opened Geometry
  import opened Decimal
  import opened CrgRegistry

  /** The segment options of a bead: `segment.name`, `segment.type` and the
      1-based `segment.position`, each possibly absent. */
  datatype SegmentOptions = SegmentOptions(name: Option<string>, segType: Option<string>, position: Option<int>)

  /** A bead. `u`, `v`, `w` are its orientation axes when it has them; `crg`
      is the id of the charge unit it belongs to, if any; `iPos` its 0-based
      position inside that unit. */
  datatype Bead = Bead(
    pos: Vec,
    u: Option<Vec>,
    v: Option<Vec>,
    w: Option<Vec>,
    symmetry: int,
    q: real,
    molId: int,
    options: SegmentOptions,
    crg: Option<int>,
    iPos: int)

  datatype Box = Box(a: Vec, b: Vec, c: Vec)

  /** The frame data of a topology: box, time, step and beads. */
  datatype Topology = Topology(box: Box, time: real, step: int, beads: seq<Bead>)

  // ---------------------------------------------------------------------
  // Segment grouping

  /** The name a charge unit gets: the molecule id in decimal, a colon, the segment name. */
  function SegmentKey(molId: int, segName: string): string {
    IntToDecimal(molId) + ":" + segName
  }

  /** In `a + ":" + n` with a colon-free `a`, the first colon sits right after `a`. */
  lemma ColonAt(a: string, n: string, i: nat)
    requires forall k :: 0 <= k < |a| ==> a[k] != ':'
    requires i <= |a|
    ensures (a + ":" + n)[i] == ':' <==> i == |a|
  {
  }

  /** Two beads get the same key only when they share molecule id and segment
      name: the molecule id's text holds no colon, so the first colon splits the key. */
  lemma SegmentKeyInjective(m1: int, n1: string, m2: int, n2: string)
    requires SegmentKey(m1, n1) == SegmentKey(m2, n2)
    ensures m1 == m2 && n1 == n2
  {
    var a, b := IntToDecimal(m1), IntToDecimal(m2);
    var k1, k2 := SegmentKey(m1, n1), SegmentKey(m2, n2);
    if |a| < |b| {
      ColonAt(a, n1, |a|);
      assert false;
    } else if |b| < |a| {
      ColonAt(b, n2, |b|);
      assert false;
    }
    assert a == k1[..|a|] == k2[..|b|] == b;
    assert n1 == k1[|a| + 1..] == k2[|b| + 1..] == n2;
    IntToDecimalInjective(m1, m2);
  }

  datatype InitError =
    | MissingOption(bead: nat, key: string)
    | CreateFailed(bead: nat, error: RegistryError)

  /** Unit `id` carries the intra-molecular doubles of its type. */
  ghost predicate PropsSet(r: Registry, id: int) {
    && id in r.byId
    && var u := r.byId[id];
    && LambdaIntraCharging in u.props && u.props[LambdaIntraCharging] == u.unitType.echarging
    && LambdaIntraDischarging in u.props && u.props[LambdaIntraDischarging] == u.unitType.edischarging
    && EnergyIntra in u.props && u.props[EnergyIntra] == u.unitType.energy
  }

  /** `r'` keeps the unit list of `r` as a prefix, the database id, every name
      binding of `r`, every unit of `r` with its name, type and molecule id,
      and every unit whose doubles were set. */
  ghost predicate Extends(r: Registry, r': Registry) {
    && r.units <= r'.units
    && r'.dbId == r.dbId
    && (forall n :: n in r.byName ==> n in r'.byName && r'.byName[n] == r.byName[n])
    && (forall id :: id in r.byId ==>
          && id in r'.byId
          && r'.byId[id].name == r.byId[id].name
          && r'.byId[id].unitType == r.byId[id].unitType
          && r'.byId[id].molId == r.byId[id].molId
          && (PropsSet(r, id) ==> PropsSet(r', id)))
  }

  lemma ExtendsTrans(r1: Registry, r2: Registry, r3: Registry)
    requires Extends(r1, r2) && Extends(r2, r3)
    ensures Extends(r1, r3)
  {
  }

  /** Bead `b'` is what grouping makes of bead `b` against registry `r`: no
      unit when it has no segment name; otherwise its type and position are
      set, it belongs to the unit registered under its key, which carries its
      type's doubles, and its position is made 0-based. Nothing else changes. */
  ghost predicate Assigned(r: Registry, b: Bead, b': Bead) {
    match b.options.name
    case None => b' == b.(crg := None)
    case Some(segName) =>
      && b.options.segType.Some?
      && b.options.position.Some?
      && SegmentKey(b.molId, segName) in r.byName
      && PropsSet(r, r.byName[SegmentKey(b.molId, segName)])
      && b' == b.(crg := Some(r.byName[SegmentKey(b.molId, segName)]), iPos := b.options.position.value - 1)
  }

  lemma AssignedExtends(r: Registry, r': Registry, b: Bead, b': Bead)
    requires Assigned(r, b, b') && Extends(r, r')
    ensures Assigned(r', b, b')
  {
  }

  /** The units the beads of `out` belong to. */
  function UnitsOf(out: seq<Bead>): set<int> {
    set i | 0 <= i < |out| && out[i].crg.Some? :: out[i].crg.value
  }

  lemma UnitsOfOne(b: Bead)
    ensures UnitsOf([b]) == if b.crg.Some? then {b.crg.value} else {}
  {
    if b.crg.Some? {
      assert [b][0].crg.value in UnitsOf([b]);
    }
  }

  lemma UnitsOfAppend(out: seq<Bead>, b: Bead)
    ensures UnitsOf(out + [b]) == UnitsOf(out) + UnitsOf([b])
  {
    var all := out + [b];
    forall id | id in UnitsOf(all) ensures id in UnitsOf(out) + UnitsOf([b]) {
      var i :| 0 <= i < |all| && all[i].crg.Some? && all[i].crg.value == id;
      if i < |out| {
        assert out[i] == all[i];
      } else {
        assert [b][0] == all[i];
      }
    }
    forall id | id in UnitsOf(out) + UnitsOf([b]) ensures id in UnitsOf(all) {
      if id in UnitsOf(out) {
        var i :| 0 <= i < |out| && out[i].crg.Some? && out[i].crg.value == id;
        assert all[i] == out[i];
      } else {
        assert all[|out|] == b;
      }
    }
  }

  /** Going from `r` to `r'`, every unit of `r` in `joined` only has its three
      intra-molecular doubles set, and every other unit of `r` is unchanged. */
  ghost predicate OnlyJoinedChange(r: Registry, r': Registry, joined: set<int>) {
    forall id :: id in r.byId ==>
      && id in r'.byId
      && r'.byId[id] == (if id in joined then WithIntraProps(r.byId[id]) else r.byId[id])
  }

  lemma OnlyJoinedChangeTrans(r1: Registry, r2: Registry, r3: Registry, j1: set<int>, j2: set<int>)
    requires OnlyJoinedChange(r1, r2, j1) && OnlyJoinedChange(r2, r3, j2)
    ensures OnlyJoinedChange(r1, r3, j1 + j2)
  {
    forall id | id in r1.byId && id in j1 && id in j2
      ensures r3.byId[id] == WithIntraProps(r1.byId[id])
    {
      WithIntraPropsIdempotent(r1.byId[id]);
    }
  }

  /** A bead with complete segment options joins the unit `id` registered
      under its key; the unit's doubles are set from its type. */
  function JoinSegment(r: Registry, b: Bead, id: int): (res: (Registry, Bead))
    requires Valid(r)
    requires b.options.name.Some? && b.options.segType.Some? && b.options.position.Some?
    requires SegmentKey(b.molId, b.options.name.value) in r.byName
    requires id == r.byName[SegmentKey(b.molId, b.options.name.value)]
    ensures Valid(res.0) && Extends(r, res.0) && Assigned(res.0, b, res.1)
    ensures Dense(r) ==> Dense(res.0)
    ensures OnlyJoinedChange(r, res.0, {id})
  {
    var r' := SetIntraProps(r, id);
    (r', b.(crg := Some(id), iPos := b.options.position.value - 1))
  }

  /** Creation only adds a binding and a unit: every existing unit, with all
      its named doubles, is kept as it was. */
  lemma CreateExtends(r: Registry, types: TypeTable, id: int, name: string, typeName: string, molId: int)
    requires CreateCrgUnit(r, types, id, name, typeName, molId).Success?
    ensures Extends(r, CreateCrgUnit(r, types, id, name, typeName, molId).value.reg)
    ensures forall k :: k in r.byId ==> CreateCrgUnit(r, types, id, name, typeName, molId).value.reg.byId[k] == r.byId[k]
  {
    var r' := CreateCrgUnit(r, types, id, name, typeName, molId).value.reg;
    forall k | k in r.byId && PropsSet(r, k) ensures PropsSet(r', k) {
      assert r'.byId[k] == r.byId[k];
    }
  }

  /** The key of the unit a bead belongs to, when it has a segment name. */
  function KeyOf(b: Bead): Option<string> {
    if b.options.name.Some? then Some(SegmentKey(b.molId, b.options.name.value)) else None
  }

  /** The unit `r` registers under `n` was made for bead `b`: `n` is the
      bead's key, and the unit has the bead's segment type and molecule id. */
  ghost predicate CreatedFor(r: Registry, types: TypeTable, b: Bead, n: string) {
    && KeyOf(b) == Some(n)
    && b.options.segType.Some? && b.options.segType.value in types
    && n in r.byName && r.byName[n] in r.byId
    && r.byId[r.byName[n]].unitType == types[b.options.segType.value]
    && r.byId[r.byName[n]].molId == b.molId
  }

  /** Bead `i` is the first of `beads` whose key is `n`. */
  ghost predicate FirstWithKey(beads: seq<Bead>, i: int, n: string) {
    && 0 <= i < |beads|
    && KeyOf(beads[i]) == Some(n)
    && forall j :: 0 <= j < i ==> KeyOf(beads[j]) != Some(n)
  }

  /** Every name `r'` binds and `r` does not belongs to a unit made for the
      first bead that carries that key: no other unit is created. */
  ghost predicate Introduced(r: Registry, r': Registry, types: TypeTable, beads: seq<Bead>) {
    forall n :: n in r'.byName && n !in r.byName ==>
      exists i :: FirstWithKey(beads, i, n) && CreatedFor(r', types, beads[i], n)
  }

  /** Groups one bead (at index `index`): looks its segment up by key and
      creates the unit on first sight, with the bead's segment type and
      molecule id and the next free id. */
  function InitBead(r: Registry, types: TypeTable, b: Bead, index: nat): (res: Result<(Registry, Bead), InitError>)
    requires Valid(r)
    ensures b.options.name.Some? && b.options.segType.None? ==>
      res == Failure(MissingOption(index, "segment.type"))
    ensures b.options.name.Some? && b.options.segType.Some? && b.options.position.None? ==>
      res == Failure(MissingOption(index, "segment.position"))
    ensures res.Success? ==>
      Valid(res.value.0) && Extends(r, res.value.0) && Assigned(res.value.0, b, res.value.1)
    ensures res.Success? && Dense(r) ==> Dense(res.value.0)
    ensures res.Success? && b.options.name.None? ==> res.value.0 == r
    ensures res.Success? ==> OnlyJoinedChange(r, res.value.0, UnitsOf([res.value.1]))
    ensures (b.options.name.Some? && b.options.segType.Some? && b.options.position.Some?
             && SegmentKey(b.molId, b.options.name.value) !in r.byName
             && CreateCrgUnitNamed(r, types, SegmentKey(b.molId, b.options.name.value),
                                   b.options.segType.value, b.molId).Failure?) ==>
      res == Failure(CreateFailed(index, CreateCrgUnitNamed(r, types, SegmentKey(b.molId, b.options.name.value),
                                                            b.options.segType.value, b.molId).error))
    ensures res.Success? ==> forall n :: n in res.value.0.byName && n !in r.byName ==>
      CreatedFor(res.value.0, types, b, n) && res.value.0.byName[n] == |r.byId| + 1
    ensures (b.options.name.Some? && b.options.segType.Some? && b.options.position.Some?
             && SegmentKey(b.molId, b.options.name.value) in r.byName) ==> res.Success?
    ensures (Dense(r) && b.options.name.Some? && b.options.segType.Some? && b.options.position.Some?
             && b.options.segType.value in types) ==> res.Success?
  {
    match b.options.name
    case None => Success((r, b.(crg := None)))
    case Some(segName) =>
      if b.options.segType.None? then Failure(MissingOption(index, "segment.type"))
      else if b.options.position.None? then Failure(MissingOption(index, "segment.position"))
      else
        var key := SegmentKey(b.molId, segName);
        if key in r.byName then
          var joined := JoinSegment(r, b, r.byName[key]);
          UnitsOfOne(joined.1);
          Success(joined)
        else
          var typeName := b.options.segType.value;
          NamedCreateKeepsDenseIfDense(r, types, key, typeName, b.molId);
          match CreateCrgUnitNamed(r, types, key, typeName, b.molId)
          case Failure(e) => Failure(CreateFailed(index, e))
          case Success(c) =>
            CreateKeepsValid(r, types, |r.byId| + 1, key, typeName, b.molId);
            CreateExtends(r, types, |r.byId| + 1, key, typeName, b.molId);
            var joined := JoinSegment(c.reg, b, c.unit.id);
            ExtendsTrans(r, c.reg, joined.0);
            assert OnlyJoinedChange(r, c.reg, {});
            OnlyJoinedChangeTrans(r, c.reg, joined.0, {}, {c.unit.id});
            UnitsOfOne(joined.1);
            Success(joined)
  }

  lemma NamedCreateKeepsDenseIfDense(r: Registry, types: TypeTable, name: string, typeName: string, molId: int)
    ensures Dense(r) ==>
      && (CreateCrgUnitNamed(r, types, name, typeName, molId).Success? <==> name !in r.byName && typeName in types)
      && (CreateCrgUnitNamed(r, types, name, typeName, molId).Success? ==>
            Dense(CreateCrgUnitNamed(r, types, name, typeName, molId).value.reg))
  {
    if Dense(r) {
      NamedCreateKeepsDense(r, types, name, typeName, molId);
    }
  }

  /** Bead by bead, `out` is what grouping makes of `beads` against `r`. */
  ghost predicate AllAssigned(r: Registry, beads: seq<Bead>, out: seq<Bead>) {
    |out| == |beads| && forall i :: 0 <= i < |beads| ==> Assigned(r, beads[i], out[i])
  }

  lemma AllAssignedStep(r: Registry, r': Registry, beads: seq<Bead>, out: seq<Bead>, b': Bead)
    requires beads != []
    requires AllAssigned(r, beads[..|beads| - 1], out) && Extends(r, r') && Assigned(r', beads[|beads| - 1], b')
    ensures AllAssigned(r', beads, out + [b'])
  {
    forall i | 0 <= i < |beads| ensures Assigned(r', beads[i], (out + [b'])[i]) {
      if i < |beads| - 1 {
        assert beads[i] == beads[..|beads| - 1][i];
        AssignedExtends(r, r', beads[i], out[i]);
      }
    }
  }

  datatype Initialized = Initialized(reg: Registry, beads: seq<Bead>)

  /** Grouping stopped by `cause`: the registry and the beads as they were
      when bead `cause.bead` failed. */
  datatype InitFailure = InitFailure(cause: InitError, reg: Registry, beads: seq<Bead>)

  /** Beads before `k` are assigned against `r`; bead `k` and those after it are untouched. */
  ghost predicate AssignedUpTo(r: Registry, beads: seq<Bead>, out: seq<Bead>, k: nat) {
    && |out| == |beads|
    && forall i :: 0 <= i < |beads| ==>
         (i < k ==> Assigned(r, beads[i], out[i])) && (k <= i ==> out[i] == beads[i])
  }

  /** A bead whose key the registry does not know yet is the first with that key. */
  lemma IntroducedStep(r: Registry, prev: Registry, next: Registry, types: TypeTable, beads: seq<Bead>, out: seq<Bead>)
    requires beads != []
    requires Introduced(r, prev, types, beads[..|beads| - 1])
    requires AllAssigned(prev, beads[..|beads| - 1], out)
    requires Extends(prev, next)
    requires forall n :: n in next.byName && n !in prev.byName ==> CreatedFor(next, types, beads[|beads| - 1], n)
    ensures Introduced(r, next, types, beads)
  {
    var init := beads[..|beads| - 1];
    forall n | n in next.byName && n !in r.byName
      ensures exists i :: FirstWithKey(beads, i, n) && CreatedFor(next, types, beads[i], n)
    {
      if n in prev.byName {
        var i :| FirstWithKey(init, i, n) && CreatedFor(prev, types, init[i], n);
        assert forall j :: 0 <= j <= i ==> beads[j] == init[j];
        assert FirstWithKey(beads, i, n);
        assert CreatedFor(next, types, beads[i], n);
      } else {
        forall j | 0 <= j < |init| ensures KeyOf(beads[j]) != Some(n) {
          assert beads[j] == init[j];
          assert Assigned(prev, init[j], out[j]);
        }
        assert FirstWithKey(beads, |beads| - 1, n);
      }
    }
  }

  /** Grouping stops at a bead of the prefix: the last bead stays untouched. */
  lemma AssignedUpToExtend(r: Registry, beads: seq<Bead>, out: seq<Bead>, k: nat)
    requires beads != [] && k < |beads| - 1
    requires AssignedUpTo(r, beads[..|beads| - 1], out, k)
    ensures AssignedUpTo(r, beads, out + [beads[|beads| - 1]], k)
  {
    forall i | 0 <= i < |beads| - 1 ensures beads[i] == beads[..|beads| - 1][i] {
    }
  }

  /** Grouping stops at the last bead: all before it are assigned. */
  lemma AssignedUpToLast(r: Registry, beads: seq<Bead>, out: seq<Bead>)
    requires beads != []
    requires AllAssigned(r, beads[..|beads| - 1], out)
    ensures AssignedUpTo(r, beads, out + [beads[|beads| - 1]], |beads| - 1)
  {
    forall i | 0 <= i < |beads| - 1 ensures beads[i] == beads[..|beads| - 1][i] {
    }
  }

  /** `f` is where grouping `beads` against `r` stopped: the bead it names
      fails against the registry reached, the registry reached is consistent
      and only holds units made for first beads, before the failing one, of
      new keys, and the beads
      before the failing one are assigned while the rest are untouched. */
  ghost predicate FailedAt(r: Registry, types: TypeTable, beads: seq<Bead>, f: InitFailure) {
    && f.cause.bead < |beads|
    && Valid(f.reg)
    && Extends(r, f.reg)
    && Introduced(r, f.reg, types, beads[..f.cause.bead])
    && |f.beads| == |beads|
    && OnlyJoinedChange(r, f.reg, UnitsOf(f.beads[..f.cause.bead]))
    && AssignedUpTo(f.reg, beads, f.beads, f.cause.bead)
    && InitBead(f.reg, types, beads[f.cause.bead], f.cause.bead) == Failure(f.cause)
  }

  /** A failure in the prefix is a failure of the whole sequence; the last bead is untouched. */
  lemma FailedInPrefix(r: Registry, types: TypeTable, beads: seq<Bead>, f: InitFailure)
    requires beads != [] && FailedAt(r, types, beads[..|beads| - 1], f)
    ensures FailedAt(r, types, beads, f.(beads := f.beads + [beads[|beads| - 1]]))
  {
    AssignedUpToExtend(f.reg, beads, f.beads, f.cause.bead);
    assert beads[f.cause.bead] == beads[..|beads| - 1][f.cause.bead];
    assert beads[..|beads| - 1][..f.cause.bead] == beads[..f.cause.bead];
    assert (f.beads + [beads[|beads| - 1]])[..f.cause.bead] == f.beads[..f.cause.bead];
  }

  /** The last bead fails after the prefix was grouped. */
  lemma FailedAtLast(r: Registry, types: TypeTable, beads: seq<Bead>, prev: Initialized, e: InitError)
    requires beads != [] && Valid(prev.reg) && Extends(r, prev.reg)
    requires Introduced(r, prev.reg, types, beads[..|beads| - 1])
    requires AllAssigned(prev.reg, beads[..|beads| - 1], prev.beads)
    requires OnlyJoinedChange(r, prev.reg, UnitsOf(prev.beads))
    requires InitBead(prev.reg, types, beads[|beads| - 1], |beads| - 1) == Failure(e)
    ensures FailedAt(r, types, beads, InitFailure(e, prev.reg, prev.beads + [beads[|beads| - 1]]))
  {
    AssignedUpToLast(prev.reg, beads, prev.beads);
    assert (prev.beads + [beads[|beads| - 1]])[..|beads| - 1] == prev.beads;
  }

  /** Groups all beads into charge units, in bead order. On success every bead
      is assigned and the only units created are those made for the first bead
      of each new key. On failure the result names the bead that failed and
      keeps what was done before it: its units stay registered and the beads
      before it stay assigned. */
  function Initialize(r: Registry, types: TypeTable, beads: seq<Bead>): (res: Result<Initialized, InitFailure>)
    requires Valid(r)
    ensures res.Success? ==>
      && Valid(res.value.reg)
      && Extends(r, res.value.reg)
      && AllAssigned(res.value.reg, beads, res.value.beads)
      && Introduced(r, res.value.reg, types, beads)
      && OnlyJoinedChange(r, res.value.reg, UnitsOf(res.value.beads))
    ensures res.Success? && Dense(r) ==> Dense(res.value.reg)
    ensures res.Failure? ==> FailedAt(r, types, beads, res.error)
    decreases |beads|
  {
    if beads == [] then Success(Initialized(r, []))
    else
      var last := |beads| - 1;
      match Initialize(r, types, beads[..last])
      case Failure(f) =>
        FailedInPrefix(r, types, beads, f);
        Failure(f.(beads := f.beads + [beads[last]]))
      case Success(prev) =>
        match InitBead(prev.reg, types, beads[last], last)
        case Failure(e) =>
          FailedAtLast(r, types, beads, prev, e);
          Failure(InitFailure(e, prev.reg, prev.beads + [beads[last]]))
        case Success(step) =>
          ExtendsTrans(r, prev.reg, step.0);
          AllAssignedStep(prev.reg, step.0, beads, prev.beads, step.1);
          IntroducedStep(r, prev.reg, step.0, types, beads, prev.beads);
          OnlyJoinedChangeTrans(r, prev.reg, step.0, UnitsOf(prev.beads), UnitsOf([step.1]));
          UnitsOfAppend(prev.beads, step.1);
          Success(Initialized(step.0, prev.beads + [step.1]))
  }

  /** Two beads with segment names end up in the same charge unit exactly when
      they share molecule id and segment name. */
  lemma InitializeGroups(r: Registry, types: TypeTable, beads: seq<Bead>, i: nat, j: nat)
    requires Valid(r)
    requires i < |beads| && j < |beads|
    requires beads[i].options.name.Some? && beads[j].options.name.Some?
    ensures Initialize(r, types, beads).Success? ==>
      var out := Initialize(r, types, beads).value.beads;
      && out[i].crg.Some?
      && (out[i].crg == out[j].crg <==>
            beads[i].molId == beads[j].molId && beads[i].options.name == beads[j].options.name)
  {
    if Initialize(r, types, beads).Failure? {
      return;
    }
    var res := Initialize(r, types, beads).value;
    assert Assigned(res.reg, beads[i], res.beads[i]);
    assert Assigned(res.reg, beads[j], res.beads[j]);
    var ki := SegmentKey(beads[i].molId, beads[i].options.name.value);
    var kj := SegmentKey(beads[j].molId, beads[j].options.name.value);
    if res.beads[i].crg == res.beads[j].crg {
      var id := res.reg.byName[ki];
      assert res.reg.byName[kj] == id;
      assert res.reg.byId[id].name == ki && res.reg.byId[id].name == kj;
      SegmentKeyInjective(beads[i].molId, beads[i].options.name.value, beads[j].molId, beads[j].options.name.value);
    }
  }

  /** Every bead with a segment name carries a segment type and a position,
      and the first bead of each key `r` does not know yet, which is the one
      that creates its unit, names a known type. Beads that join an existing
      unit need no known type. */
  ghost predicate OptionsComplete(r: Registry, types: TypeTable, beads: seq<Bead>) {
    && (forall i :: 0 <= i < |beads| && beads[i].options.name.Some? ==>
          beads[i].options.segType.Some? && beads[i].options.position.Some?)
    && (forall i, n :: FirstWithKey(beads, i, n) && n !in r.byName ==> beads[i].options.segType.value in types)
  }

  lemma OptionsCompletePrefix(r: Registry, types: TypeTable, beads: seq<Bead>)
    requires beads != [] && OptionsComplete(r, types, beads)
    ensures OptionsComplete(r, types, beads[..|beads| - 1])
  {
    var init := beads[..|beads| - 1];
    forall i | 0 <= i < |init| && init[i].options.name.Some?
      ensures init[i].options.segType.Some? && init[i].options.position.Some?
    {
      assert init[i] == beads[i];
    }
    forall i, n | FirstWithKey(init, i, n) && n !in r.byName
      ensures init[i].options.segType.value in types
    {
      assert forall j :: 0 <= j <= i ==> init[j] == beads[j];
      assert FirstWithKey(beads, i, n);
    }
  }

  /** After the prefix is grouped, the last bead either joins a unit already
      registered or is the first bead of its key, whose type is known. */
  lemma LastBeadSucceeds(r: Registry, types: TypeTable, beads: seq<Bead>, prev: Initialized)
    requires beads != [] && OptionsComplete(r, types, beads)
    requires Valid(prev.reg) && Dense(prev.reg) && Extends(r, prev.reg)
    requires AllAssigned(prev.reg, beads[..|beads| - 1], prev.beads)
    ensures InitBead(prev.reg, types, beads[|beads| - 1], |beads| - 1).Success?
  {
    var last := |beads| - 1;
    var b := beads[last];
    if b.options.name.Some? {
      var key := SegmentKey(b.molId, b.options.name.value);
      if key !in prev.reg.byName {
        forall j | 0 <= j < last ensures KeyOf(beads[j]) != Some(key) {
          assert beads[j] == beads[..last][j];
          assert Assigned(prev.reg, beads[..last][j], prev.beads[j]);
        }
        assert FirstWithKey(beads, last, key);
      }
    }
  }

  /** Starting from a registry with dense ids, grouping fails only for a bead
      whose options are incomplete or which creates a unit of an unknown type. */
  lemma {:induction false} InitializeSucceeds(r: Registry, types: TypeTable, beads: seq<Bead>)
    requires Valid(r) && Dense(r)
    requires OptionsComplete(r, types, beads)
    ensures Initialize(r, types, beads).Success?
    decreases |beads|
  {
    if beads != [] {
      var init := beads[..|beads| - 1];
      OptionsCompletePrefix(r, types, beads);
      InitializeSucceeds(r, types, init);
      LastBeadSucceeds(r, types, beads, Initialize(r, types, init).value);
    }
  }

  /** A bead with a segment name but no segment type or position makes grouping fail. */
  lemma InitializeNeedsOptions(r: Registry, types: TypeTable, beads: seq<Bead>, i: nat)
    requires Valid(r)
    requires i < |beads| && beads[i].options.name.Some?
    requires beads[i].options.segType.None? || beads[i].options.position.None?
    ensures Initialize(r, types, beads).Failure?
  {
    if Initialize(r, types, beads).Success? {
      assert false;
    }
  }

  // ---------------------------------------------------------------------
  // Charges

  datatype ChargeError = BeadCountMismatch | NoCharges | EmptyCharges

  /** `out` is `mol` with bead `i`'s charge set to `mpls[i]`, nothing else changed. */
  ghost predicate ChargesCopied(mol: seq<Bead>, mpls: seq<real>, out: seq<Bead>) {
    && |out| == |mol|
    && |mol| <= |mpls|
    && forall i :: 0 <= i < |mol| ==> out[i] == mol[i].(q := mpls[i])
  }

  function ChargesOf(mol: seq<Bead>): (qs: seq<real>)
    ensures |qs| == |mol|
  {
    seq(|mol|, i requires 0 <= i < |mol| => mol[i].q)
  }

  /** The beads with their charges blanked: everything a charge copy must leave alone. */
  function WithoutCharges(mol: seq<Bead>): seq<Bead> {
    seq(|mol|, i requires 0 <= i < |mol| => mol[i].(q := 0.0))
  }

  /** Reading the charges back gives the first table entries, and all other bead data is kept. */
  lemma ChargesCopiedReadBack(mol: seq<Bead>, mpls: seq<real>, out: seq<Bead>)
    requires ChargesCopied(mol, mpls, out)
    ensures ChargesOf(out) == mpls[..|mol|]
    ensures WithoutCharges(out) == WithoutCharges(mol)
  {
  }

  /** Sets the charge of bead `i` to `mpls[i]` for every bead of the molecule. */
  method AssignCharges(mol: seq<Bead>, mpls: seq<real>) returns (out: seq<Bead>)
    requires |mol| <= |mpls|
    ensures ChargesCopied(mol, mpls, out)
  {
    out := [];
    var i := 0;
    while i < |mol|
      invariant 0 <= i <= |mol|
      invariant |out| == i
      invariant forall k :: 0 <= k < i ==> out[k] == mol[k].(q := mpls[k])
    {
      out := out + [mol[i].(q := mpls[i])];
      i := i + 1;
    }
  }

  /** Copies the neutral charges of unit `crg`'s type onto the molecule's beads.
      Fails when the bead count differs from the type's atom count or when the
      type has no neutral charges. The source reads the table without a bounds
      check, so a table shorter than the molecule is excluded by the precondition. */
  method CopyCharges(crg: CrgUnit, mol: seq<Bead>) returns (res: Result<seq<Bead>, ChargeError>)
    requires |mol| == crg.unitType.atoms && crg.unitType.neutral.Some? ==>
      |mol| <= |crg.unitType.neutral.value|
    ensures |mol| != crg.unitType.atoms ==> res == Failure(BeadCountMismatch)
    ensures |mol| == crg.unitType.atoms && crg.unitType.neutral.None? ==> res == Failure(NoCharges)
    ensures res.Success? <==> |mol| == crg.unitType.atoms && crg.unitType.neutral.Some?
    ensures res.Success? ==> ChargesCopied(mol, crg.unitType.neutral.value, res.value)
  {
    if |mol| != crg.unitType.atoms {
      return Failure(BeadCountMismatch);
    }
    if crg.unitType.neutral.None? {
      return Failure(NoCharges);
    }
    var out := AssignCharges(mol, crg.unitType.neutral.value);
    return Success(out);
  }

  /** As `CopyCharges`, with the charged table; an empty charged table is an
      error of its own, even for a molecule without beads. */
  method CopyChargesOccupied(crg: CrgUnit, mol: seq<Bead>) returns (res: Result<seq<Bead>, ChargeError>)
    requires |mol| == crg.unitType.atoms && crg.unitType.charged.Some? && |crg.unitType.charged.value| != 0 ==>
      |mol| <= |crg.unitType.charged.value|
    ensures |mol| != crg.unitType.atoms ==> res == Failure(BeadCountMismatch)
    ensures |mol| == crg.unitType.atoms && crg.unitType.charged.None? ==> res == Failure(NoCharges)
    ensures |mol| == crg.unitType.atoms && crg.unitType.charged == Some([]) ==> res == Failure(EmptyCharges)
    ensures res.Success? <==>
      |mol| == crg.unitType.atoms && crg.unitType.charged.Some? && |crg.unitType.charged.value| != 0
    ensures res.Success? ==> ChargesCopied(mol, crg.unitType.charged.value, res.value)
  {
    if |mol| != crg.unitType.atoms {
      return Failure(BeadCountMismatch);
    }
    if crg.unitType.charged.None? {
      return Failure(NoCharges);
    }
    if |crg.unitType.charged.value| == 0 {
      return Failure(EmptyCharges);
    }
    var out := AssignCharges(mol, crg.unitType.charged.value);
    return Success(out);
  }

  // ---------------------------------------------------------------------
  // Per-frame update

  /** Bead `b` after copying the state of coarse-grained bead `cg`: the
      position always, each axis `cg` has, and the unit axes in place of all
      three when `cg`'s symmetry is 1. */
  function UpdateBead(b: Bead, cg: Bead): (r: Bead)
    ensures r.pos == cg.pos
    ensures cg.symmetry == 1 ==> r.u == Some(UnitX) && r.v == Some(UnitY) && r.w == Some(UnitZ)
    ensures cg.symmetry != 1 ==>
      && r.u == (if cg.u.Some? then cg.u else b.u)
      && r.v == (if cg.v.Some? then cg.v else b.v)
      && r.w == (if cg.w.Some? then cg.w else b.w)
    ensures r.(pos := b.pos, u := b.u, v := b.v, w := b.w) == b
  {
    var b1 := b.(pos := cg.pos);
    var b2 := if cg.u.Some? then b1.(u := cg.u) else b1;
    var b3 := if cg.v.Some? then b2.(v := cg.v) else b2;
    var b4 := if cg.w.Some? then b3.(w := cg.w) else b3;
    if cg.symmetry == 1 then b4.(u := Some(UnitX), v := Some(UnitY), w := Some(UnitZ)) else b4
  }

  /** Applying the same frame twice changes nothing more. */
  lemma UpdateBeadIdempotent(b: Bead, cg: Bead)
    ensures UpdateBead(UpdateBead(b, cg), cg) == UpdateBead(b, cg)
  {
  }

  /** Once a bead has copied a frame, its orientation no longer depends on
      what it had before, provided the frame bead carries all three axes or
      has symmetry 1 (which sets the unit axes). */
  lemma UpdateBeadForgetsOrientation(b1: Bead, b2: Bead, cg: Bead)
    requires cg.symmetry == 1 || (cg.u.Some? && cg.v.Some? && cg.w.Some?)
    ensures UpdateBead(b1, cg).u == UpdateBead(b2, cg).u
    ensures UpdateBead(b1, cg).v == UpdateBead(b2, cg).v
    ensures UpdateBead(b1, cg).w == UpdateBead(b2, cg).w
  {
  }

  /** Copies the frame of the coarse-grained topology: box, time and step, and
      each bead's state index by index. The bead counts must agree. */
  method Update(qm: Topology, cg: Topology) returns (r: Topology)
    requires |cg.beads| == |qm.beads|
    ensures r.box == cg.box && r.time == cg.time && r.step == cg.step
    ensures |r.beads| == |qm.beads|
    ensures forall i :: 0 <= i < |qm.beads| ==> r.beads[i] == UpdateBead(qm.beads[i], cg.beads[i])
  {
    var beads := [];
    var i := 0;
    while i < |qm.beads|
      invariant 0 <= i <= |qm.beads|
      invariant |beads| == i
      invariant forall k :: 0 <= k < i ==> beads[k] == UpdateBead(qm.beads[k], cg.beads[k])
    {
      beads := beads + [UpdateBead(qm.beads[i], cg.beads[i])];
      i := i + 1;
    }
    r := Topology(cg.box, cg.time, cg.step, beads);
  }
}

=== FILE: wrappers.dfy ===
/** Failure-compatible helper datatypes shared by the graph and topology models. */
module Wrappers {

  /** A value that may be absent; stands for a nullable pointer or an optional setting. */
  datatype Option<T> = None | Some(value: T)

  /** Either a computed value or the error the source throws instead. */
  datatype Result<T, E> = Success(value: T) | Failure(error: E)
}
